=== FILE: README.md ===
# StonkFish trading ledger, modelled in Dafny

StonkFish is a Flask brokerage simulation. Users register, log in, buy and
sell shares at quoted prices, and look at their portfolio and their
transaction history. This project models the request handlers of
`application.py` that change state, together with the portfolio total. They
work on an immutable in-memory database instead of SQLite:

- `users`: id ↦ (username, password hash, cash);
- `holdings`: (user id, symbol) ↦ number of shares;
- `history`: an append-only sequence of (user id, symbol, signed share count,
  total amount, time).

Each POST handler is a pure function. It returns `Ok(new database)` or
`Refused(apology)`, where the apology carries the page's message and status
code and no database, so a refused request changes nothing (`Tables.After`).
Money is in integer cents. The quote service (`lookup`), the password hash
(`generate_password_hash`), the password check (`check_password_hash`) and
the clock are parameters.

Modules:

- `Wrappers`: optional values.
- `Forms`: form fields as `request.form.get` returns them, their truthiness,
  and ASCII `str.upper`.
- `PyInt`: Python's `int(text)`, which reads the share count.
- `Tables`: the database, apology pages and the consistency predicate `Valid`.
- `Trade`: the `buy` and `sell` handlers.
- `Auth`: `register`, `login` and `logout`.
- `Portfolio`: the portfolio grand total and the per-user history list.
- `TradeFacts`, `AuthFacts`: properties that relate several calls.
- `App`: the whole application as a state machine over a sequence of requests.

Modelling choices:

- A form field is `None` when it is absent and `Some(text)` otherwise. The
  handlers test `not request.form.get(...)`, which is `!Given(field)`.
- In `buy`, a missing `shares` field reaches `int(None)`. That raises
  `TypeError`, which the handler does not catch, so the generic error handler
  answers with status 500. The same happens when the upper-cased symbol gets
  no quote, and when the session's user has no row. All of these are
  `Refused(InternalError)`.
- `apology(...)` called without a status uses the default of
  `helpers.apology`, which is `DefaultCode` here. `helpers.py` is not part of
  this model.
- The database schema is not part of this model either:
  - The holdings table is taken to be keyed by (user id, symbol). When `buy`
    inserts a row under the symbol as typed and that key already exists, the
    model answers status 500 and makes no change. What the source does there
    depends on the schema and the database driver; see `Trade.Buy` under
    "## Left out".
  - Text comparison is case-sensitive, which is SQLite's default.
  - A new user starts with `StartingCash` = 10000.00.
  - User ids are handed out in increasing order (`nextId`).
  - `SELECT * FROM history WHERE user_id = ...` (application.py:144) has no
    `ORDER BY`. The model returns the rows in insertion order, which is the
    order SQLite gives when it scans a table by rowid.
- Symbol case is modelled faithfully. The holdings lookup and update use
  `Upper(symbol)`. The history row, the new-holding insert, the ownership
  check in `sell` and the held-count read in `sell` use the symbol as
  submitted.
- The zero-row cleanup in `sell` is modelled as written. It deletes the
  zero-share rows of every user (`Tables.DropZeroRows`).
- A zero-share buy or sell passes validation, as in the code. A zero-share
  buy of a new symbol therefore creates a row with 0 shares.
- Symbols reach the quote service in two spellings. `buy` validates with
  `lookup(symbol)` (application.py:80) and prices with
  `lookup(symbol.upper())` (application.py:94); `sell` prices with
  `lookup(symbol.upper())` only (application.py:301). Every call is modelled
  with the argument the code passes.
- A missing share count is not turned into an apology in `buy`: it is the
  500 described above. In `sell` it is the "Must enter shares" apology.
- The zero-row delete (application.py:317-318) has no `WHERE user_id`
  clause, so it removes the zero rows of every user, and the model does too.

## Model

| member | source | states |
|---|---|---|
| Trade.Buy | application.py:73-131 | Refusals come in the handler's order: missing symbol, unknown symbol, a share count that is not a non-negative integer (403), missing count (500), no quote for the upper-cased symbol or no user row (500), cost above cash ("cannot afford", no partial fill), an insert under the symbol as typed that collides with an existing row (500). Every other purchase is accepted, zero shares included. It debits exactly price·n from the buyer only and appends one history row (+n, price·n). It adds n to the (user, upper(symbol)) row, or inserts a row of n under the symbol as typed. |
| Trade.Sell | application.py:269-325 | Refusals come in order: no symbol, symbol not held, no count, invalid count, more shares than held (no short selling), then no quote or no user row (500). Every sale of at most the held count is accepted. It credits exactly price·n and appends one row (−n, price·n). It sets the (user, upper(symbol)) row to held−n, where held was read under the submitted symbol. Every other row keeps its count. No row is created; rows disappear only when held−n is zero, and then exactly the zero rows of every user go. |
| Trade.Purchase | application.py:107-128 | The writes of an accepted purchase: the buyer's cash falls by price·n and nobody else's changes, one history row (+n, price·n) is appended, the written row grows by n (created at n when absent), and every other row keeps its count. |
| Trade.Settle | application.py:308-322 | The writes of an accepted sale: the seller's cash rises by price·n, one history row (−n, price·n) is appended, the target row becomes held−n if it exists, and every other row keeps its count. No row is created. When held−n is not zero no row disappears; when it is zero exactly the target row and the other zero rows go. |
| Trade.SellCorrected | application.py:292-322 | Same refusals, the same acceptance of every sale of at most the held count, and the same cash and history effects as `Sell`. The sold row itself ends at held−n, and it is gone exactly when that is zero, together with every other zero row. |
| Auth.Register | application.py:227-252 | Refuses a missing name, a missing password or confirmation, mismatched passwords, or a taken name (403). It succeeds exactly when none of these apply. It then adds the user under the fresh id with the hash of the password and the starting cash. Nothing else changes. |
| Auth.Login | application.py:157-182 | The prior session never survives. A user is bound iff both fields are given, exactly one user has the name, and the password verifies against that user's hash. Every credential failure produces the same page. |
| Auth.Logout | application.py:189-197 | The session is cleared whatever it held. |
| Portfolio.Total | application.py:44-64 | The grand total is cash plus Σ price(symbol)·stocks over the user's rows. It is a 500 exactly when the user has no row or some held symbol has no quote. |
| Portfolio.UserHistory | application.py:139-149 | The history page lists only the user's own rows, each taken from the table, and every row of the user appears. |
| Portfolio.UserHistoryAppend | application.py:144 | The list keeps table order: a row appended to the table is appended to its owner's list and to nobody else's. |
| Portfolio.UserHistoryPrefix | application.py:144 | Appending rows to the table only extends each user's list at its end. |
| Tables.DropZeroRows | application.py:317-318 | The cleanup removes exactly the zero-share rows of every user, keeps every other row, and so keeps every recorded count. |
| PyInt.ParseShow | application.py:86-93 | `int` reads back `str(n)` as n for every integer, so a count written as plain decimal text is accepted with its value (see "## Left out" for the digit limit of recent interpreters). |
| PyInt.PaddingIgnored | application.py:86-93 | `int` skips any spaces, tabs, newlines, vertical tabs, form feeds and carriage returns around the number, so a padded count reads as the number it pads. |
| PyInt.SeparatorRefused | application.py:86-90 | The separator characters 28..31 are not whitespace to `int`: a count containing one anywhere raises `ValueError` and is refused. |
| PyInt.NonIntegerRefused | application.py:86-90 | A count containing any character other than whitespace, a sign, a digit or an underscore (`2.5`, `ten`) raises `ValueError` and is refused. |
| TradeFacts.BuyPreservesValid | application.py:100-128 | A buy keeps cash and share counts non-negative, keeps every row owned by an existing user, and keeps user names unique. |
| TradeFacts.SellPreservesValid | application.py:292-322 | The sell handler as written keeps the same consistency. |
| TradeFacts.SellCorrectedPreservesValid | application.py:292-322 | The corrected sell handler keeps the same consistency. |
| TradeFacts.PurchasePreservesValid | application.py:107-128 | The purchase writes keep the tables consistent when the buyer can afford the shares and the written row is the buyer's. |
| TradeFacts.SettlePreservesValid | application.py:308-322 | The sale writes keep the tables consistent when no more than the held count is sold. |
| TradeFacts.SellAgreesOnUpperCase | application.py:293-315 | For an upper-case symbol the as-written and corrected sell handlers are identical. |
| TradeFacts.BuyConservesWorth | application.py:101-128 | When the quote service gives the typed symbol and its upper case the same price, and every symbol the buyer already holds has a quote, a buy at the quoted price moves value from cash to holdings, and cash plus holdings at the quoted prices is unchanged. With different prices for "nflx" and "NFLX" a buy typed "nflx" changes that worth, because it is charged at the upper-case price and valued at the typed one. |
| TradeFacts.SellCorrectedConservesWorth | application.py:306-322 | When the quote service gives the typed symbol and its upper case the same price, and every symbol the seller holds has a quote, a corrected sale at the quoted price moves value from holdings to cash, and the portfolio worth is unchanged. |
| TradeFacts.BuyThenSellRestores | application.py:107-128 | For an upper-case symbol, and a table with no zero-share rows, buying n shares and then selling the same n at the same quote restores the user's cash and all holdings exactly. Only the two history rows (+n and −n) remain. Both conditions are needed: a lower-case symbol hits the finding below, and the sale's cleanup would drop existing zero rows. |
| TradeFacts.LowerCaseBuyStoresLowerCaseRow | application.py:112-124 | Concrete case: buying one share typed "nflx" finds no "NFLX" row and stores the new row under "nflx". |
| TradeFacts.SellOfLowerCaseHoldingKeepsShares | application.py:294-318 | Concrete case of the handler as written on that "nflx" row: the sale credits the proceeds back, but the "NFLX" row it writes does not exist, so the "nflx" row keeps its share. |
| TradeFacts.SeparatorPaddedCountRefused | application.py:86-90 | Concrete case: the counts "\x1c5" in `buy` and "1\x1f" in `sell` are refused as "Enter valid number of shares" with status 403. |
| TradeFacts.SellCorrectedOfLowerCaseHoldingRemovesIt | application.py:294-318 | In the same case the corrected handler sets the "nflx" row to zero and removes it. |
| TradeFacts.PurchaseThenSettle | application.py:107-128 | In a table where no row holds 0 shares, writing a purchase of n shares and then a sale of the same n at the same price to the same row restores users and holdings, leaving only the two history rows. The condition is needed because the sale's cleanup deletes every zero row. |
| AuthFacts.RegisterPreservesValid | application.py:242-251 | The duplicate-name check keeps user names unique, and with them the rest of the consistency. |
| AuthFacts.RegisterAddsOne | application.py:247-251 | A successful registration adds exactly one user, and afterwards exactly one user has that name. |
| AuthFacts.RegisterThenLogin | application.py:171-179 | Provided the password check accepts the hash the hasher made of that password (`check_password_hash(generate_password_hash(p), p)`, foreign code assumed to round-trip), a user who has just registered can log in with the same name and password, and the session is bound to the new id. |
| AuthFacts.LoginIgnoresPriorSession | application.py:156-157 | A login attempt ends in the same state whatever the session held before. |
| AuthFacts.LoginFailuresIndistinguishable | application.py:174-176 | An unknown user name and a wrong password produce identical outcomes. |
| AuthFacts.LogoutIdempotent | application.py:193-194 | Logging out twice equals logging out once. |
| App.Step | application.py:67-329 | Any single request appends at most one history row, owned by the logged-in user, and never alters an earlier row. Opening the login page or logging out clears the session and changes no table. |
| App.RunAppendsHistory | application.py:308-310 | Over any sequence of requests the history keeps every earlier row in place and grows by at most one row per request. |
| App.RunExtendsUserHistory | application.py:139-149 | Over any sequence of requests each user's history page only grows at its end. |
| App.RunPreservesGood | application.py:67-329 | From a consistent state, any sequence of requests keeps the tables consistent, and a bound session names an existing user. |

## Findings

| source | as written | input that shows it | evidently intended | confidence | as-written member | corrected member |
|---|---|---|---|---|---|---|
| application.py:313-315 | `sell` reads the held count from the row of the submitted symbol (294-295) but writes the reduced count to the row of `symbol.upper()`. `buy` inserts a new row under the symbol as typed (123-124). | Buy 1 share of "nflx", then sell 1 share of "nflx". The sale credits the proceeds, but no "NFLX" row exists to update, so the "nflx" row keeps its share. | Write the reduced count to the row that was read and checked. | medium, not executed: it relies on case-sensitive text comparison in the database, which is SQLite's default but depends on the schema | Trade.Sell, TradeFacts.SellOfLowerCaseHoldingKeepsShares | Trade.SellCorrected, TradeFacts.SellCorrectedOfLowerCaseHoldingRemovesIt, TradeFacts.SellCorrectedConservesWorth |

`App.Step` runs sales through `Trade.Sell` or `Trade.SellCorrected`, as the environment's `sale` field chooses, so every `App` lemma holds for the program as written and for the corrected one. `TradeFacts.SellAgreesOnUpperCase` shows that the two handlers behave identically whenever the symbol is upper case.

## Left out

- HTTP plumbing: Flask routing, the GET branches that only render forms (GET `/login` also clears the session first, application.py:157; that effect is `App.LoginPage`), `render_template`, redirects, the response headers (application.py:20-25) and the error handler (application.py:332-341). Only its outcome is modelled: status 500 and no change.
- The `login_required` guard lives in `helpers.py`, which is not part of this model. `App.Step` models its effect: trade requests without a bound session change nothing.
- Trade.Buy: the outcome of the insert collision (application.py:123-124) depends on the schema and on the version of the database driver, neither of which is part of this model. If the driver raises on the duplicate key, the request ends in a 500, but the +n history row written before it (application.py:108-109) stays, because there is no transaction. If the driver swallows the error, the handler carries on to the cash update (application.py:127-128): the buyer is debited and the history row is written, but no share is added. The model chooses neither. It treats each handler as one atomic transition and answers a 500 that changes nothing.
- PyInt.ParseShow: Python 3.11 and later (and the 3.7.14 and 3.8.14 security releases) refuse `int` on text of more than 4300 digits with `ValueError`. The model has no such limit, so it accepts share counts that long, where those interpreters would answer "Enter valid number of shares".
- The `/quote` page (application.py:200-219) is left out: it only reads and calls the external quote service. Currency formatting (`usd`) is left out too.
- `lookup` is a parameter. Each trade request carries the quote service as it answered that request, so prices can change between requests. Quote prices are floats in the source and whole cents here, so float rounding is not modelled.
- Trade.Buy: `price * stocks` (application.py:101) multiplies a float by an int. Python raises `OverflowError` when the int is 2^1024 or more, a count of 309 digits or more. The handler does not catch that error, so the source answers 500. The model computes in unbounded integers instead. It answers 403 "cannot afford" for any positive price, and at a quote of 0 it accepts the purchase. The same product in `sell` (application.py:310, 322) and in the portfolio total (application.py:59) can only overflow on a holding that large. The source never creates one, because its `buy` raises first. The model can, but only through the zero-quote purchase above.
- Password hashing and checking are foreign code. They are the `hasher` and `verifies` parameters.
- `datetime.now()` and the `[:19]` truncation on the history page (application.py:98, 148) are left out. A timestamp is an opaque input.
- The filesystem session store and the `API_KEY` startup check (application.py:31-41) are configuration and I/O. The session is modelled only as the bound user id, which is the only key the application stores.
- Non-ASCII text: `str.upper` and `int` are modelled for ASCII input only. Unicode case mapping, the non-ASCII whitespace that `int` skips (such as U+2003) and non-ASCII digits are not modelled.
- Portfolio.Total: the source reads rows in ascending symbol order and raises at the first symbol without a quote. Integer sums do not depend on order, so the model visits rows in any order and only promises the final total or the 500.

=== FILE: app.dfy ===
/** The application as a state machine: the database and the session of one
    browser, driven by a sequence of form submissions. The `/quote`,
    `/history` and `/` pages only read, so they are not requests here. */
module App {
  import opened Forms
  import opened Tables
  import opened Trade
  import opened Auth
  import Portfolio
  import TradeFacts
  import AuthFacts

  datatype Request =
    | BuyForm(symbol: Field, shares: Field, lookup: Lookup, time: Time)
    | SellForm(symbol: Field, shares: Field, lookup: Lookup, time: Time)
    | RegisterForm(username: Field, password: Field, confirm: Field)
    | LoginForm(username: Field, password: Field)
    | LoginPage
    | LogoutRequest

  /** The foreign collaborators that stay fixed over a run: the password
      hashing utility; and which row a sale writes back to, `UpperCased` for
      the handler as written and `AsRead` for the corrected one. Quotes change
      between requests, so each trade carries the quote service as it answered
      that request, along with its timestamp. */
  datatype Env = Env(hasher: Hasher, verifies: Verifier, sale: UpdateKey)

  datatype State = State(db: Db, session: Session)

  /** The tables are consistent and a bound session names an existing user. */
  ghost predicate Good(st: State) {
    Valid(st.db) && (st.session.Some? ==> st.session.value in st.db.users)
  }

  /** One request. Trading without a bound session is turned away by the
      login guard before the handler runs. Opening the login page clears
      the session before the method is looked at. */
  function Step(st: State, req: Request, env: Env): (st': State)
    // the history only grows, by at most one row, and earlier rows stay
    ensures st.db.history <= st'.db.history
    ensures |st'.db.history| <= |st.db.history| + 1
    // a new history row belongs to the logged-in user
    ensures |st'.db.history| > |st.db.history| ==>
              st.session.Some? && st'.db.history[|st.db.history|].user == st.session.value
    // the login page and logging out forget the user and touch no table
    ensures req.LoginPage? || req.LogoutRequest? ==> st'.session.None? && st'.db == st.db
  {
    match req
    case BuyForm(symbol, shares, lookup, time) =>
      if st.session.None? then st
      else st.(db := After(st.db, Buy(st.db, st.session.value, symbol, shares, lookup, time)))
    case SellForm(symbol, shares, lookup, time) =>
      if st.session.None? then st
      else if env.sale == UpperCased then st.(db := After(st.db, Sell(st.db, st.session.value, symbol, shares, lookup, time)))
      else st.(db := After(st.db, SellCorrected(st.db, st.session.value, symbol, shares, lookup, time)))
    case RegisterForm(username, password, confirm) =>
      st.(db := After(st.db, Register(st.db, username, password, confirm, env.hasher)))
    case LoginForm(username, password) =>
      st.(session := Login(st.session, st.db, username, password, env.verifies).session)
    case LoginPage =>
      st.(session := Logout(st.session))
    case LogoutRequest =>
      st.(session := Logout(st.session))
  }

  lemma StepPreservesGood(st: State, req: Request, env: Env)
    requires Good(st)
    ensures Good(Step(st, req, env))
  {
    match req
    case BuyForm(symbol, shares, lookup, time) =>
      if st.session.Some? {
        TradeFacts.BuyPreservesValid(st.db, st.session.value, symbol, shares, lookup, time);
      }
    case SellForm(symbol, shares, lookup, time) =>
      if st.session.Some? && env.sale == UpperCased {
        TradeFacts.SellPreservesValid(st.db, st.session.value, symbol, shares, lookup, time);
      } else if st.session.Some? {
        TradeFacts.SellCorrectedPreservesValid(st.db, st.session.value, symbol, shares, lookup, time);
      }
    case RegisterForm(username, password, confirm) =>
      AuthFacts.RegisterPreservesValid(st.db, username, password, confirm, env.hasher);
    case LoginForm(username, password) =>
    case LoginPage =>
    case LogoutRequest =>
  }

  /** The requests applied in order. */
  function Run(st: State, reqs: seq<Request>, env: Env): State
    decreases |reqs|
  {
    if reqs == [] then st else Run(Step(st, reqs[0], env), reqs[1..], env)
  }

  /** Over any run the history is append-only: every row there was at the
      start is still there, in place, and each request added at most one. */
  lemma {:induction false} RunAppendsHistory(st: State, reqs: seq<Request>, env: Env)
    ensures st.db.history <= Run(st, reqs, env).db.history
    ensures |Run(st, reqs, env).db.history| <= |st.db.history| + |reqs|
    decreases |reqs|
  {
    if reqs != [] {
      RunAppendsHistory(Step(st, reqs[0], env), reqs[1..], env);
    }
  }

  /** Every user's own transaction list, as the history page shows it, only
      ever grows at its end over a run. */
  lemma RunExtendsUserHistory(st: State, reqs: seq<Request>, env: Env, user: UserId)
    ensures Portfolio.UserHistory(st.db.history, user)
            <= Portfolio.UserHistory(Run(st, reqs, env).db.history, user)
  {
    var h := st.db.history;
    var h' := Run(st, reqs, env).db.history;
    RunAppendsHistory(st, reqs, env);
    assert h' == h + h'[|h|..];
    Portfolio.UserHistoryPrefix(h, h'[|h|..], user);
  }

  /** Consistency holds from the empty database on, whatever is submitted. */
  lemma {:induction false} RunPreservesGood(st: State, reqs: seq<Request>, env: Env)
    requires Good(st)
    ensures Good(Run(st, reqs, env))
    decreases |reqs|
  {
    if reqs != [] {
      StepPreservesGood(st, reqs[0], env);
      RunPreservesGood(Step(st, reqs[0], env), reqs[1..], env);
    }
  }
}

=== FILE: auth.dfy ===
/** Registration, login and logout. Password hashing and checking are foreign
    code, so they enter as parameters: `hasher` stands for
    `generate_password_hash` and `verifies` for `check_password_hash`. */
module Auth {
  import opened Wrappers
  import opened Forms
  import opened Tables

  /** The part of the Flask session the application uses: the bound user id. */
  type Session = Option<UserId>

  type Hasher = string -> string

  type Verifier = (string, string) -> bool

  /** Some user already has exactly this name (case-sensitive). */
  predicate Taken(db: Db, name: string) {
    exists id :: id in db.users && db.users[id].username == name
  }

  /** The ids of the rows `SELECT * FROM users WHERE username = name` returns. */
  function Matches(db: Db, name: string): (m: set<UserId>)
    ensures forall id :: id in m <==> id in db.users && db.users[id].username == name
  {
    set id | id in db.users && db.users[id].username == name
  }

  /** The POST branch of `register`. */
  function Register(db: Db, username: Field, password: Field, confirm: Field, hasher: Hasher): (r: Outcome<Db>)
    ensures !Given(username) ==> r == Refused(Apology("must provide username", Forbidden))
    ensures Given(username) && (!Given(password) || !Given(confirm)) ==>
              r == Refused(Apology("must confirm password", Forbidden))
    ensures Given(username) && Given(password) && Given(confirm) && password.value != confirm.value ==>
              r == Refused(Apology("passowords don't match", Forbidden))
    ensures Given(username) && Given(password) && Given(confirm) && password.value == confirm.value
            && Taken(db, username.value) ==>
              r == Refused(Apology("username already exists", Forbidden))
    // a registration that goes through adds exactly one user, storing the
    // hash of the password and the starting balance
    ensures r.Ok? <==> Given(username) && Given(password) && Given(confirm)
                       && password.value == confirm.value && !Taken(db, username.value)
    ensures r.Ok? ==>
              && r.value.users.Keys == db.users.Keys + {db.nextId}
              && r.value.users[db.nextId] == User(username.value, hasher(password.value), StartingCash)
              && (forall id :: id in db.users && id != db.nextId ==> r.value.users[id] == db.users[id])
              && r.value.nextId > db.nextId
              && r.value.holdings == db.holdings
              && r.value.history == db.history
  {
    if !Given(username) then Refused(Apology("must provide username", Forbidden))
    else if !Given(password) || !Given(confirm) then Refused(Apology("must confirm password", Forbidden))
    else if password.value != confirm.value then Refused(Apology("passowords don't match", Forbidden))
    else if Taken(db, username.value) then Refused(Apology("username already exists", Forbidden))
    else
      Ok(db.(users := db.users[db.nextId := User(username.value, hasher(password.value), StartingCash)],
             nextId := db.nextId + 1))
  }

  /** The session a login leaves, and the apology page when it fails. */
  datatype LoginReply = LoginReply(session: Session, apology: Option<Apology>)

  const BadCredentials := Apology("invalid username and/or password", Forbidden)

  /** The POST branch of `login`. The prior session is cleared before anything
      else, so it never survives, not even a failed attempt. */
  function Login(prior: Session, db: Db, username: Field, password: Field, verifies: Verifier): (r: LoginReply)
    ensures r.session.None? <==> r.apology.Some?
    ensures !Given(username) ==> r == LoginReply(None, Some(Apology("must provide username", Forbidden)))
    ensures Given(username) && !Given(password) ==>
              r == LoginReply(None, Some(Apology("must provide password", Forbidden)))
    // the user bound is the one user of that name, and the password checks
    ensures r.session.Some? <==>
              && Given(username) && Given(password)
              && |Matches(db, username.value)| == 1
              && exists id :: id in Matches(db, username.value) && verifies(db.users[id].hash, password.value)
    ensures r.session.Some? ==>
              && r.session.value in db.users
              && db.users[r.session.value].username == username.value
              && verifies(db.users[r.session.value].hash, password.value)
    // an unknown name and a wrong password are told apart by nothing
    ensures Given(username) && Given(password) && r.session.None? ==> r.apology == Some(BadCredentials)
  {
    var cleared: Session := None;
    if !Given(username) then LoginReply(cleared, Some(Apology("must provide username", Forbidden)))
    else if !Given(password) then LoginReply(cleared, Some(Apology("must provide password", Forbidden)))
    else
      var rows := Matches(db, username.value);
      if |rows| != 1 then LoginReply(cleared, Some(BadCredentials))
      else
        SingletonUnique(rows);
        var id :| id in rows;
        if !verifies(db.users[id].hash, password.value) then LoginReply(cleared, Some(BadCredentials))
        else LoginReply(Some(id), None)
  }

  lemma SingletonUnique(s: set<UserId>)
    requires |s| == 1
    ensures exists x :: s == {x}
  {
    var x :| x in s;
    assert |s - {x}| == 0;
    assert s == {x};
  }

  /** The GET route `logout`: the session is cleared whatever it held. */
  function Logout(prior: Session): (r: Session)
    ensures r.None?
  {
    None
  }
}

=== FILE: auth_facts.dfy ===
/** What registration, login and logout guarantee across calls. */
module AuthFacts {
  import opened Wrappers
  import opened Forms
  import opened Tables
  import opened Auth

  /** Registration keeps the tables consistent; in particular user names
      stay unique, which is what lets login find at most one row. */
  lemma RegisterPreservesValid(db: Db, username: Field, password: Field, confirm: Field, hasher: Hasher)
    requires Valid(db)
    ensures Valid(After(db, Register(db, username, password, confirm, hasher)))
  {
    var r := Register(db, username, password, confirm, hasher);
    if r.Ok? {
      var db' := r.value;
      assert db.nextId !in db.users;
      forall a, b | a in db'.users && b in db'.users && a != b
        ensures db'.users[a].username != db'.users[b].username
      {
        if a == db.nextId {
          assert !Taken(db, username.value);
          assert db.users[b].username != username.value;
        } else if b == db.nextId {
          assert db.users[a].username != username.value;
        }
      }
    }
  }

  /** On a consistent database a successful registration adds exactly one
      user, under a fresh id. */
  lemma RegisterAddsOne(db: Db, username: Field, password: Field, confirm: Field, hasher: Hasher)
    requires Valid(db)
    requires Register(db, username, password, confirm, hasher).Ok?
    ensures var db' := Register(db, username, password, confirm, hasher).value;
            && db.nextId !in db.users
            && |db'.users| == |db.users| + 1
            && |Matches(db', username.value)| == 1
  {
    var db' := Register(db, username, password, confirm, hasher).value;
    var name := username.value;
    assert db.nextId !in db.users;
    assert !Taken(db, name);
    assert db'.users == db.users[db.nextId := User(name, hasher(password.value), StartingCash)];
    forall id | id in db'.users
      ensures db'.users[id].username == name <==> id == db.nextId
    {
      if id != db.nextId {
        assert db.users[id].username != name;
      }
    }
    assert Matches(db', name) == {db.nextId};
    assert db'.users.Keys == db.users.Keys + {db.nextId};
  }

  /** The one user of a name, with a password that verifies, is logged in. */
  lemma LoginSucceeds(prior: Session, db: Db, name: string, password: string, id: UserId, verifies: Verifier)
    requires name != "" && password != ""
    requires Matches(db, name) == {id}
    requires verifies(db.users[id].hash, password)
    ensures Login(prior, db, Some(name), Some(password), verifies) == LoginReply(Some(id), None)
  {
    var r := Login(prior, db, Some(name), Some(password), verifies);
    assert |Matches(db, name)| == 1;
    assert r.session.Some?;
    assert r.session.value in Matches(db, name);
  }

  /** Whoever has just registered can log in with the same name and
      password, provided the password check accepts the hash made from that
      password; the session is then bound to the new user. */
  lemma RegisterThenLogin(prior: Session, db: Db, name: string, password: string, hasher: Hasher, verifies: Verifier)
    requires Valid(db)
    requires Register(db, Some(name), Some(password), Some(password), hasher).Ok?
    requires verifies(hasher(password), password)
    ensures var db' := Register(db, Some(name), Some(password), Some(password), hasher).value;
            Login(prior, db', Some(name), Some(password), verifies) == LoginReply(Some(db.nextId), None)
  {
    var db' := Register(db, Some(name), Some(password), Some(password), hasher).value;
    RegisterAddsOne(db, Some(name), Some(password), Some(password), hasher);
    assert Matches(db', name) == {db.nextId};
    assert db'.users[db.nextId].hash == hasher(password);
    LoginSucceeds(prior, db', name, password, db.nextId, verifies);
  }

  /** Whatever the session held before, a login attempt ends in the same
      state: a fixated session id never survives. */
  lemma LoginIgnoresPriorSession(s1: Session, s2: Session, db: Db, username: Field, password: Field, verifies: Verifier)
    ensures Login(s1, db, username, password, verifies) == Login(s2, db, username, password, verifies)
  {
  }

  /** A wrong password and an unknown user name produce the same page. */
  lemma LoginFailuresIndistinguishable(prior: Session, db: Db, unknown: string, known: string, password: string, verifies: Verifier)
    requires password != ""
    requires unknown != "" && !Taken(db, unknown)
    requires known != "" && forall id :: id in db.users && db.users[id].username == known ==> !verifies(db.users[id].hash, password)
    ensures Login(prior, db, Some(unknown), Some(password), verifies)
         == Login(prior, db, Some(known), Some(password), verifies)
  {
    assert Matches(db, unknown) == {};
  }

  /** Logging out twice is the same as logging out once. */
  lemma LogoutIdempotent(s: Session)
    ensures Logout(Logout(s)) == Logout(s)
  {
  }
}

=== FILE: forms.dfy ===
/** Form fields as Flask hands them to a handler, and the string helpers the
    handlers apply to them. */
module Forms {
  import opened Wrappers

  /** `request.form.get(name)`: `None` when the field was not submitted at all,
      otherwise the submitted text (possibly empty). */
  type Field = Option<string>

  /** Python truthiness of a field: `not request.form.get(name)` holds exactly
      when the field is absent or empty. */
  predicate Given(f: Field) {
    f.Some? && f.value != ""
  }

  /** `str.upper()` restricted to ASCII: lower-case Latin letters are mapped to
      upper case, every other character is kept. */
  function UpperChar(c: char): char {
    if 'a' <= c <= 'z' then (c as int - 'a' as int + 'A' as int) as char else c
  }

  function Upper(s: string): (r: string)
    ensures |r| == |s|
    ensures forall i :: 0 <= i < |s| ==> r[i] == UpperChar(s[i])
  {
    if s == [] then [] else [UpperChar(s[0])] + Upper(s[1..])
  }

  /** A symbol is already normalised when upper-casing leaves it unchanged. */
  predicate IsUpper(s: string) {
    forall i :: 0 <= i < |s| ==> !('a' <= s[i] <= 'z')
  }

  /** Upper-casing is idempotent and yields a normalised symbol; a normalised
      symbol is its own upper case. */
  lemma UpperNormalises(s: string)
    ensures IsUpper(Upper(s))
    ensures Upper(Upper(s)) == Upper(s)
    ensures IsUpper(s) <==> Upper(s) == s
  {
    if IsUpper(s) {
      assert forall i :: 0 <= i < |s| ==> Upper(s)[i] == s[i];
    }
    if Upper(s) == s {
      assert forall i :: 0 <= i < |s| ==> UpperChar(s[i]) == s[i];
    }
  }
}

=== FILE: portfolio.dfy ===
/** The read-only views: the portfolio page's grand total (`index`) and the
    user's transaction list (`history`). */
module Portfolio {
  import opened Tables

  /** The keys of the rows `SELECT * FROM holdings WHERE user_id = user`
      returns. */
  function UserRows(h: map<HoldingKey, int>, user: UserId): (ks: set<HoldingKey>)
    ensures forall k :: k in ks <==> k in h && k.user == user
  {
    set k | k in h && k.user == user
  }

  /** Every symbol in `ks` has a quote. */
  predicate Quoted(ks: set<HoldingKey>, lookup: Lookup) {
    forall k :: k in ks ==> lookup(k.symbol).Some?
  }

  /** The value of the rows `ks` at the quoted prices: the sum of
      price(symbol) * stocks. */
  ghost function Value(h: map<HoldingKey, int>, ks: set<HoldingKey>, lookup: Lookup): Cents
    requires ks <= h.Keys && Quoted(ks, lookup)
    decreases ks
  {
    if ks == {} then 0
    else
      var k :| k in ks;
      lookup(k.symbol).value * h[k] + Value(h, ks - {k}, lookup)
  }

  /** The sum does not depend on which row is taken first. */
  lemma {:induction false} ValueRemove(h: map<HoldingKey, int>, ks: set<HoldingKey>, lookup: Lookup, k: HoldingKey)
    requires ks <= h.Keys && Quoted(ks, lookup) && k in ks
    ensures Value(h, ks, lookup) == lookup(k.symbol).value * h[k] + Value(h, ks - {k}, lookup)
    decreases ks
  {
    var j :| j in ks && Value(h, ks, lookup) == lookup(j.symbol).value * h[j] + Value(h, ks - {j}, lookup);
    if j != k {
      ValueRemove(h, ks - {j}, lookup, k);
      ValueRemove(h, ks - {k}, lookup, j);
      assert ks - {j} - {k} == ks - {k} - {j};
    }
  }

  /** Rows outside `ks` do not enter its value. */
  lemma {:induction false} ValueFrame(h: map<HoldingKey, int>, h': map<HoldingKey, int>, ks: set<HoldingKey>, lookup: Lookup)
    requires ks <= h.Keys && ks <= h'.Keys && Quoted(ks, lookup)
    requires forall k :: k in ks ==> h[k] == h'[k]
    ensures Value(h, ks, lookup) == Value(h', ks, lookup)
    decreases ks
  {
    if ks != {} {
      var k :| k in ks;
      ValueRemove(h, ks, lookup, k);
      ValueRemove(h', ks, lookup, k);
      ValueFrame(h, h', ks - {k}, lookup);
    }
  }

  /** Rows holding zero shares are worth nothing, so dropping them keeps the
      value. */
  lemma {:induction false} ValueWithoutZeros(h: map<HoldingKey, int>, ks: set<HoldingKey>, lookup: Lookup)
    requires ks <= h.Keys && Quoted(ks, lookup)
    ensures Value(h, ks, lookup) == Value(h, (set k | k in ks && h[k] != 0), lookup)
    decreases ks
  {
    var nz := set k | k in ks && h[k] != 0;
    if ks != {} {
      var k :| k in ks;
      ValueRemove(h, ks, lookup, k);
      ValueWithoutZeros(h, ks - {k}, lookup);
      var nz' := set j | j in ks - {k} && h[j] != 0;
      if h[k] != 0 {
        assert nz' == nz - {k};
        ValueRemove(h, nz, lookup, k);
      } else {
        assert nz' == nz;
      }
    }
  }

  /** Setting one row of a user to `m` shares (creating the row if needed)
      replaces that row's price * count in the value of the user's rows. */
  lemma SetRow(h: map<HoldingKey, int>, k: HoldingKey, m: int, lookup: Lookup)
    requires Quoted(UserRows(h, k.user), lookup) && lookup(k.symbol).Some?
    ensures Quoted(UserRows(h[k := m], k.user), lookup)
    ensures Value(h[k := m], UserRows(h[k := m], k.user), lookup) + lookup(k.symbol).value * Stocks(h, k)
            == Value(h, UserRows(h, k.user), lookup) + lookup(k.symbol).value * m
  {
    var h' := h[k := m];
    var p := lookup(k.symbol).value;
    var rows, rows' := UserRows(h, k.user), UserRows(h', k.user);
    assert rows' == rows + {k};
    ValueRemove(h', rows', lookup, k);
    ValueFrame(h, h', rows - {k}, lookup);
    assert rows' - {k} == rows - {k};
    if k in h {
      ValueRemove(h, rows, lookup, k);
    } else {
      assert rows - {k} == rows;
    }
  }

  lemma Distribute(a: int, b: int, c: int)
    ensures a * (b + c) == a * b + a * c
  {
  }

  /** The arithmetic of moving `n` shares at price `p` out of a row that held
      `s = left + n`. */
  lemma Rebalance(after: int, before: int, p: int, s: int, left: int, n: int)
    requires after + p * s == before + p * left
    requires s == left + n
    ensures after + p * n == before
  {
    Distribute(p, left, n);
  }

  /** Selling `n` shares out of row `k` takes price * n off the owner's
      value. */
  lemma SellRowValue(h: map<HoldingKey, int>, k: HoldingKey, n: int, lookup: Lookup)
    requires k in h && Quoted(UserRows(h, k.user), lookup)
    ensures Quoted(UserRows(h[k := h[k] - n], k.user), lookup)
    ensures Value(h[k := h[k] - n], UserRows(h[k := h[k] - n], k.user), lookup) + lookup(k.symbol).value * n
            == Value(h, UserRows(h, k.user), lookup)
  {
    var updated := h[k := h[k] - n];
    SetRow(h, k, h[k] - n, lookup);
    Rebalance(Value(updated, UserRows(updated, k.user), lookup), Value(h, UserRows(h, k.user), lookup),
              lookup(k.symbol).value, Stocks(h, k), h[k] - n, n);
  }

  /** Dropping every zero row keeps each user's value. */
  lemma DropZeroRowsKeepsValue(h: map<HoldingKey, int>, user: UserId, lookup: Lookup)
    requires Quoted(UserRows(h, user), lookup)
    ensures Quoted(UserRows(DropZeroRows(h), user), lookup)
    ensures Value(DropZeroRows(h), UserRows(DropZeroRows(h), user), lookup) == Value(h, UserRows(h, user), lookup)
  {
    var rows := UserRows(h, user);
    var h' := DropZeroRows(h);
    ValueWithoutZeros(h, rows, lookup);
    assert UserRows(h', user) == set k | k in rows && h[k] != 0;
    ValueFrame(h, h', UserRows(h', user), lookup);
  }

  /** Cash plus holdings at the quoted prices: what the portfolio page
      calls the grand total. */
  ghost function Worth(db: Db, user: UserId, lookup: Lookup): Cents
    requires user in db.users && Quoted(UserRows(db.holdings, user), lookup)
  {
    db.users[user].cash + Value(db.holdings, UserRows(db.holdings, user), lookup)
  }

  /** The grand total the portfolio page shows: cash plus the value of every
      holding at its current quote. A user id with no row, or a held symbol the
      quote service cannot price, raises in the handler and yields status 500. */
  method Total(db: Db, user: UserId, lookup: Lookup) returns (r: Outcome<Cents>)
    ensures r.Ok? <==> user in db.users && Quoted(UserRows(db.holdings, user), lookup)
    ensures r.Refused? ==> r.apology == InternalError
    ensures r.Ok? ==> r.value == Worth(db, user, lookup)
  {
    if user !in db.users {
      return Refused(InternalError);
    }
    var cash := db.users[user].cash;
    var rows := UserRows(db.holdings, user);
    var left := rows;
    var total := 0;
    while left != {}
      invariant left <= rows
      invariant Quoted(rows - left, lookup)
      invariant Quoted(rows, lookup) ==> total + Value(db.holdings, left, lookup) == Value(db.holdings, rows, lookup)
      decreases left
    {
      var k :| k in left;
      var quote := lookup(k.symbol);
      if quote.None? {
        return Refused(InternalError);
      }
      if Quoted(rows, lookup) {
        ValueRemove(db.holdings, left, lookup, k);
      }
      total := total + quote.value * db.holdings[k];
      left := left - {k};
    }
    assert rows - left == rows;
    r := Ok(total + cash);
  }

  /** The rows `SELECT * FROM history WHERE user_id = user` returns, in
      insertion order. */
  function UserHistory(h: seq<Entry>, user: UserId): (r: seq<Entry>)
    ensures |r| <= |h|
    ensures forall i :: 0 <= i < |r| ==> r[i].user == user && r[i] in h
    // and every row of the user is listed
    ensures forall i :: 0 <= i < |h| && h[i].user == user ==> h[i] in r
  {
    if h == [] then []
    else
      var init := h[..|h| - 1];
      assert forall i :: 0 <= i < |init| ==> init[i] == h[i];
      UserHistory(init, user) + (if h[|h| - 1].user == user then [h[|h| - 1]] else [])
  }

  /** Appending a row shows up in its owner's list and nobody else's. */
  lemma UserHistoryAppend(h: seq<Entry>, e: Entry, user: UserId)
    ensures UserHistory(h + [e], user) == UserHistory(h, user) + (if e.user == user then [e] else [])
  {
    assert (h + [e])[..|h + [e]| - 1] == h;
  }

  /** Extending the table only extends each user's list: what a user saw
      before is still the start of what they see now. */
  lemma {:induction false} UserHistoryPrefix(h: seq<Entry>, more: seq<Entry>, user: UserId)
    ensures UserHistory(h, user) <= UserHistory(h + more, user)
    decreases |more|
  {
    if more != [] {
      var init := more[..|more| - 1];
      var last := more[|more| - 1];
      UserHistoryPrefix(h, init, user);
      assert h + more == (h + init) + [last];
      UserHistoryAppend(h + init, last, user);
    } else {
      assert h + more == h;
    }
  }
}

=== FILE: pyint.dfy ===
/** Python's `int(text)` on a string, as the buy and sell handlers use it to
    read the requested number of shares: surrounding whitespace is ignored,
    one optional sign, then decimal digits with single underscores allowed
    between digits. Anything else raises `ValueError`, modelled as `None`. */
module PyInt {
  import opened Wrappers

  /** The ASCII whitespace `int` skips around the number: space and
      `\t \n \v \f \r` (9..13). The separators 28..31, which `str.isspace`
      also counts, are not skipped. */
  predicate IsSpace(c: char) {
    c == ' ' || 9 <= c as int <= 13
  }

  predicate IsDigit(c: char) {
    '0' <= c <= '9'
  }

  function StripLeft(s: string): string {
    if |s| > 0 && IsSpace(s[0]) then StripLeft(s[1..]) else s
  }

  function StripRight(s: string): string {
    if |s| > 0 && IsSpace(s[|s| - 1]) then StripRight(s[..|s| - 1]) else s
  }

  function Strip(s: string): string {
    StripRight(StripLeft(s))
  }

  /** A digit group: non-empty, digits and underscores, every underscore
      directly followed by a digit and the first character a digit. */
  predicate DigitGroup(b: string) {
    && |b| > 0
    && IsDigit(b[0])
    && forall i :: 0 <= i < |b| ==> GroupChar(b, i)
  }

  /** The character at `i` is a digit, or an underscore followed by a digit. */
  predicate GroupChar(b: string, i: nat)
    requires i < |b|
  {
    IsDigit(b[i]) || (b[i] == '_' && i + 1 < |b| && IsDigit(b[i + 1]))
  }

  /** The value of a digit group, underscores skipped. */
  function GroupValue(b: string): nat {
    if |b| == 0 then 0
    else if IsDigit(b[|b| - 1]) then 10 * GroupValue(b[..|b| - 1]) + (b[|b| - 1] as int - '0' as int)
    else GroupValue(b[..|b| - 1])
  }

  function Parse(s: string): Option<int> {
    var t := Strip(s);
    if |t| > 0 && (t[0] == '+' || t[0] == '-') then
      if DigitGroup(t[1..]) then
        var magnitude: int := GroupValue(t[1..]);
        Some(if t[0] == '-' then -magnitude else magnitude)
      else None
    else if DigitGroup(t) then Some(GroupValue(t))
    else None
  }

  function DigitChar(d: nat): char
    requires d < 10
  {
    ('0' as int + d) as char
  }

  /** Canonical decimal text of a natural number, as `str(n)` writes it. */
  function Digits(n: nat): (r: string)
    ensures |r| > 0
    ensures forall i :: 0 <= i < |r| ==> IsDigit(r[i])
  {
    if n < 10 then [DigitChar(n)] else Digits(n / 10) + [DigitChar(n % 10)]
  }

  /** `str(n)` for any integer. */
  function Show(n: int): (r: string)
    ensures |r| > 0
  {
    if n < 0 then "-" + Digits(-n) else Digits(n)
  }

  lemma {:induction false} DigitsValue(n: nat)
    ensures DigitGroup(Digits(n))
    ensures GroupValue(Digits(n)) == n
  {
    var d := Digits(n);
    if n >= 10 {
      DigitsValue(n / 10);
      assert d[..|d| - 1] == Digits(n / 10);
    }
  }

  lemma StripKeepsUnspaced(s: string)
    requires |s| > 0 && !IsSpace(s[0]) && !IsSpace(s[|s| - 1])
    ensures Strip(s) == s
  {
  }

  /** Reading back what `str` wrote gives the number again. */
  lemma ParseShow(n: int)
    ensures Parse(Show(n)) == Some(n)
  {
    var t := Show(n);
    if n < 0 {
      DigitsValue(-n);
      assert t[1..] == Digits(-n);
    } else {
      DigitsValue(n);
    }
    StripKeepsUnspaced(t);
  }

  /** Every non-space character of the text survives stripping. */
  lemma {:induction false} StripKeeps(s: string, c: char)
    requires c in s && !IsSpace(c)
    ensures c in Strip(s)
  {
    StripLeftKeeps(s, c);
    StripRightKeeps(StripLeft(s), c);
  }

  lemma {:induction false} StripLeftKeeps(s: string, c: char)
    requires c in s && !IsSpace(c)
    ensures c in StripLeft(s)
  {
    if |s| > 0 && IsSpace(s[0]) {
      assert c in s[1..] by {
        var i :| 0 <= i < |s| && s[i] == c;
        assert i > 0 && s[1..][i - 1] == c;
      }
      StripLeftKeeps(s[1..], c);
    }
  }

  lemma {:induction false} StripRightKeeps(s: string, c: char)
    requires c in s && !IsSpace(c)
    ensures c in StripRight(s)
  {
    if |s| > 0 && IsSpace(s[|s| - 1]) {
      assert c in s[..|s| - 1] by {
        var i :| 0 <= i < |s| && s[i] == c;
        assert i < |s| - 1 && s[..|s| - 1][i] == c;
      }
      StripRightKeeps(s[..|s| - 1], c);
    }
  }

  /** A fractional or otherwise non-integer text such as "2.5" or "ten" is
      refused: any character other than whitespace, a sign, a digit or an
      underscore makes the conversion fail. */
  lemma NonIntegerRefused(s: string, c: char)
    requires c in s
    requires !IsSpace(c) && !IsDigit(c) && c != '_' && c != '+' && c != '-'
    ensures Parse(s).None?
  {
    StripKeeps(s, c);
    var t := Strip(s);
    var i :| 0 <= i < |t| && t[i] == c;
    if |t| > 0 && (t[0] == '+' || t[0] == '-') {
      var b := t[1..];
      assert i > 0 && b[i - 1] == c;
      assert !GroupChar(b, i - 1);
    } else {
      assert !GroupChar(t, i);
    }
  }

  /** The file, group and record separators (28..31) are not whitespace to
      `int`: a count that contains one anywhere is refused. */
  lemma SeparatorRefused(s: string, c: char)
    requires c in s && 28 <= c as int <= 31
    ensures Parse(s).None?
  {
    NonIntegerRefused(s, c);
  }

  /** `str(n)` surrounded by any whitespace still reads as n. */
  lemma PaddingIgnored(pre: string, n: int, post: string)
    requires forall i :: 0 <= i < |pre| ==> IsSpace(pre[i])
    requires forall i :: 0 <= i < |post| ==> IsSpace(post[i])
    ensures Parse(pre + Show(n) + post) == Some(n)
  {
    var x := Show(n);
    ShowUnspaced(n);
    assert pre + x + post == pre + (x + post);
    StripLeftPadding(pre, x + post);
    StripRightPadding(x, post);
    StripKeepsUnspaced(x);
    assert Strip(pre + x + post) == Strip(x);
    ParseShow(n);
  }

  lemma ShowUnspaced(n: int)
    ensures !IsSpace(Show(n)[0]) && !IsSpace(Show(n)[|Show(n)| - 1])
  {
    var d := if n < 0 then Digits(-n) else Digits(n);
    assert IsDigit(d[|d| - 1]);
    if n >= 0 {
      assert IsDigit(d[0]);
    }
  }

  lemma {:induction false} StripLeftPadding(pre: string, x: string)
    requires forall i :: 0 <= i < |pre| ==> IsSpace(pre[i])
    requires |x| > 0 && !IsSpace(x[0])
    ensures StripLeft(pre + x) == x
  {
    if pre == [] {
      assert pre + x == x;
    } else {
      assert (pre + x)[1..] == pre[1..] + x;
      StripLeftPadding(pre[1..], x);
    }
  }

  lemma {:induction false} StripRightPadding(x: string, post: string)
    requires forall i :: 0 <= i < |post| ==> IsSpace(post[i])
    requires |x| > 0 && !IsSpace(x[|x| - 1])
    ensures StripRight(x + post) == x
  {
    if post == [] {
      assert x + post == x;
    } else {
      var init := post[..|post| - 1];
      assert (x + post)[..|x + post| - 1] == x + init;
      StripRightPadding(x, init);
    }
  }
}

=== FILE: tables.dfy ===
/** The three tables of the brokerage database (users, holdings, history),
    lifted out of SQL into one immutable value, and the outcome of a request
    handler: a new database, or an apology page with the database untouched. */
module Tables {
  import opened Wrappers

  type UserId = nat

  /** Money in integer cents: a share price, a cash balance, a trade amount. */
  type Cents = int

  /** A quote price in cents per share; the quote service only quotes
      non-negative prices. */
  type Price = nat

  /** The external quote service: the price for a symbol, or `None` when the
      symbol is unknown or the lookup fails. */
  type Lookup = string -> Option<Price>

  /** An opaque timestamp, `str(datetime.now())` in the application. */
  type Time = string

  /** Starting balance the database gives a newly inserted user: 10000.00. */
  const StartingCash: Cents := 1_000_000

  datatype User = User(username: string, hash: string, cash: Cents)

  datatype HoldingKey = HoldingKey(user: UserId, symbol: string)

  /** One history row: `stocks` is positive for a purchase and negative for a
      sale; `price` is the total amount of the trade. */
  datatype Entry = Entry(user: UserId, symbol: string, stocks: int, price: Cents, time: Time)

  /** `nextId` is the id the next inserted user receives. */
  datatype Db = Db(
    users: map<UserId, User>,
    nextId: UserId,
    holdings: map<HoldingKey, int>,
    history: seq<Entry>)

  /** The status an apology page carries; `DefaultCode` is whatever default
      `helpers.apology` uses when the handler passes none. */
  datatype Status = Code(code: nat) | DefaultCode

  const Forbidden := Code(403)

  datatype Apology = Apology(message: string, status: Status)

  /** What the generic error handler renders for an uncaught exception
      (`TypeError`, `IndexError`, a constraint violation): status 500. */
  const InternalError := Apology("Internal Server Error", Code(500))

  datatype Outcome<T> = Ok(value: T) | Refused(apology: Apology)

  /** The database a request leaves behind: a refused request changes nothing. */
  function After(db: Db, r: Outcome<Db>): Db {
    if r.Ok? then r.value else db
  }

  /** The empty database a fresh installation starts with. */
  const Empty := Db(map[], 1, map[], [])

  /** The number of shares a holdings table records for a key, zero when
      there is no row. */
  function Stocks(h: map<HoldingKey, int>, k: HoldingKey): int {
    if k in h then h[k] else 0
  }

  /** The consistency the handlers maintain between the tables. */
  ghost predicate Valid(db: Db) {
    && (forall id :: id in db.users ==> id < db.nextId)
    && (forall id :: id in db.users ==> db.users[id].cash >= 0)
    && (forall a, b :: a in db.users && b in db.users && a != b ==>
          db.users[a].username != db.users[b].username)
    && (forall k :: k in db.holdings ==> k.user in db.users && db.holdings[k] >= 0)
    && (forall i :: 0 <= i < |db.history| ==> db.history[i].user in db.users)
  }

  lemma EmptyValid()
    ensures Valid(Empty)
  {
  }

  /** `DELETE FROM holdings WHERE stocks = 0`: every zero row of every user
      disappears and every other row stays as it was. */
  function DropZeroRows(h: map<HoldingKey, int>): (r: map<HoldingKey, int>)
    ensures forall k :: k in r <==> k in h && h[k] != 0
    ensures forall k :: k in r ==> r[k] == h[k]
    ensures forall k :: Stocks(r, k) == Stocks(h, k)
  {
    map k | k in h && h[k] != 0 :: h[k]
  }
}

=== FILE: trade.dfy ===
/** The POST handlers of `/buy` and `/sell` as pure transitions of the
    database. The logged-in user's id is the one the session holds; the quote
    service is the `lookup` parameter and the timestamp the `time` parameter. */
module Trade {
  import opened Forms
  import opened Tables
  import PyInt

  /** `int(text) < 0` or `ValueError`: the shares field does not hold a
      non-negative integer. */
  predicate BadCount(text: string) {
    PyInt.Parse(text).None? || PyInt.Parse(text).value < 0
  }

  /** The requested share count once it has passed validation. */
  function Count(text: string): nat
    requires !BadCount(text)
  {
    PyInt.Parse(text).value
  }

  /** The POST branch of `buy`. */
  function Buy(db: Db, user: UserId, symbol: Field, shares: Field, lookup: Lookup, time: Time): (r: Outcome<Db>)
    // validation, in the order the handler checks
    ensures !Given(symbol) ==> r == Refused(Apology("Stock name is required", Forbidden))
    ensures Given(symbol) && lookup(symbol.value).None? ==>
              r == Refused(Apology("Enter valid stock name", Forbidden))
    ensures Given(symbol) && lookup(symbol.value).Some? && shares.Some? && BadCount(shares.value) ==>
              r == Refused(Apology("Enter valid number of shares", Forbidden))
    // a missing shares field reaches int(None), which raises TypeError
    ensures Given(symbol) && lookup(symbol.value).Some? && shares.None? ==> r == Refused(InternalError)
    // the affordability check: no partial fills
    ensures Given(symbol) && lookup(symbol.value).Some? && shares.Some? && !BadCount(shares.value)
            && lookup(Upper(symbol.value)).Some? && user in db.users
            && lookup(Upper(symbol.value)).value * Count(shares.value) > db.users[user].cash ==>
              r == Refused(Apology("Unable to purchase: cannot afford", Forbidden))
    // the quote of the upper-cased symbol and the user's row are read
    // unchecked: either missing is a 500
    ensures Given(symbol) && lookup(symbol.value).Some? && shares.Some? && !BadCount(shares.value)
            && lookup(Upper(symbol.value)).None? ==>
              r == Refused(InternalError)
    ensures Given(symbol) && lookup(symbol.value).Some? && shares.Some? && !BadCount(shares.value)
            && lookup(Upper(symbol.value)).Some? && user !in db.users ==>
              r == Refused(InternalError)
    // an insert under the symbol as typed that collides with an existing row
    ensures Given(symbol) && lookup(symbol.value).Some? && shares.Some? && !BadCount(shares.value)
            && lookup(Upper(symbol.value)).Some? && user in db.users
            && lookup(Upper(symbol.value)).value * Count(shares.value) <= db.users[user].cash
            && HoldingKey(user, Upper(symbol.value)) !in db.holdings && HoldingKey(user, symbol.value) in db.holdings ==>
              r == Refused(InternalError)
    // every affordable purchase of a non-negative count (zero included) is accepted
    ensures Given(symbol) && lookup(symbol.value).Some? && shares.Some? && !BadCount(shares.value)
            && lookup(Upper(symbol.value)).Some? && user in db.users
            && lookup(Upper(symbol.value)).value * Count(shares.value) <= db.users[user].cash
            && (HoldingKey(user, Upper(symbol.value)) in db.holdings || HoldingKey(user, symbol.value) !in db.holdings) ==>
              r.Ok?
    // a purchase that goes through
    ensures r.Ok? ==>
              && Given(symbol) && lookup(symbol.value).Some? && shares.Some? && !BadCount(shares.value)
              && lookup(Upper(symbol.value)).Some? && user in db.users
              && var n := Count(shares.value);
                 var cost := lookup(Upper(symbol.value)).value * n;
                 var cash := db.users[user].cash;
                 var key := HoldingKey(user, Upper(symbol.value));
                 var raw := HoldingKey(user, symbol.value);
                 && cost <= cash
                 // cash is debited by exactly the cost; nobody else's row moves
                 && r.value.users.Keys == db.users.Keys
                 && r.value.users[user] == db.users[user].(cash := cash - cost)
                 && (forall id :: id in db.users && id != user ==> r.value.users[id] == db.users[id])
                 && r.value.nextId == db.nextId
                 // exactly one history row, recording +n shares for the total cost
                 && r.value.history == db.history + [Entry(user, symbol.value, n, cost, time)]
                 // the upper-case row grows by n, or a new row of n is inserted
                 && (key in db.holdings ==> r.value.holdings == db.holdings[key := db.holdings[key] + n])
                 && (key !in db.holdings ==> raw !in db.holdings && r.value.holdings == db.holdings[raw := n])
  {
    if !Given(symbol) then Refused(Apology("Stock name is required", Forbidden))
    else if lookup(symbol.value).None? then Refused(Apology("Enter valid stock name", Forbidden))
    else if shares.None? then Refused(InternalError)
    else if BadCount(shares.value) then Refused(Apology("Enter valid number of shares", Forbidden))
    else
      var sym := symbol.value;
      var n := Count(shares.value);
      var quote := lookup(Upper(sym));
      if quote.None? then Refused(InternalError)
      else if user !in db.users then Refused(InternalError)
      else
        var cost := quote.value * n;
        var cash := db.users[user].cash;
        if cost > cash then Refused(Apology("Unable to purchase: cannot afford", Forbidden))
        else
          var key := HoldingKey(user, Upper(sym));
          var raw := HoldingKey(user, sym);
          // the insert uses the symbol as typed; a row already under that
          // key violates the (user_id, symbol) key of the table
          if key !in db.holdings && raw in db.holdings then Refused(InternalError)
          else Ok(Purchase(db, user, sym, if key in db.holdings then key else raw, n, quote.value, time))
  }

  /** The three writes of a purchase that passed every check: one history row
      (+n shares for the cost), n more shares in the `row` (created at n when
      missing), and the buyer debited with the cost. */
  function Purchase(db: Db, user: UserId, sym: string, row: HoldingKey, n: nat, price: Price, time: Time): (r: Db)
    requires user in db.users
    ensures r.users.Keys == db.users.Keys
    ensures r.users[user] == db.users[user].(cash := db.users[user].cash - price * n)
    ensures forall id :: id in db.users && id != user ==> r.users[id] == db.users[id]
    ensures r.nextId == db.nextId
    ensures r.history == db.history + [Entry(user, sym, n, price * n, time)]
    ensures r.holdings.Keys == db.holdings.Keys + {row}
    ensures Stocks(r.holdings, row) == Stocks(db.holdings, row) + n
    ensures forall k :: k in db.holdings && k != row ==> r.holdings[k] == db.holdings[k]
  {
    Db(db.users[user := db.users[user].(cash := db.users[user].cash - price * n)],
       db.nextId,
       db.holdings[row := Stocks(db.holdings, row) + n],
       db.history + [Entry(user, sym, n, price * n, time)])
  }

  /** Which holdings row the sell handler writes the reduced count to:
      `UpperCased` is the source as written, `AsRead` the row it read. */
  datatype UpdateKey = UpperCased | AsRead

  /** The POST branch of `sell`, parameterised by the row it updates. */
  function SellUpdating(db: Db, user: UserId, symbol: Field, shares: Field, lookup: Lookup, time: Time, which: UpdateKey): Outcome<Db> {
    if !Given(symbol) then Refused(Apology("No stock selected", Forbidden))
    else if HoldingKey(user, symbol.value) !in db.holdings then Refused(Apology("TODO", DefaultCode))
    else if !Given(shares) then Refused(Apology("Must enter shares", DefaultCode))
    else if BadCount(shares.value) then Refused(Apology("Enter valid number of shares", Forbidden))
    else
      var sym := symbol.value;
      var n := Count(shares.value);
      var held := db.holdings[HoldingKey(user, sym)];
      if n > held then Refused(Apology("Too many shares", DefaultCode))
      else
        var quote := lookup(Upper(sym));
        if quote.None? then Refused(InternalError)
        else if user !in db.users then Refused(InternalError)
        else
          var target := HoldingKey(user, if which == UpperCased then Upper(sym) else sym);
          Ok(Settle(db, user, sym, target, held, n, quote.value, time))
  }

  /** The three writes of a sale that passed every check: one history row
      (-n shares for the proceeds), the `target` row set to `held - n` (a
      missing row is not created), the zero rows dropped when that count is
      zero, and the seller credited with the proceeds. */
  function Settle(db: Db, user: UserId, sym: string, target: HoldingKey, held: int, n: nat, price: Price, time: Time): (r: Db)
    requires user in db.users && n <= held
    ensures r.users.Keys == db.users.Keys
    ensures r.users[user] == db.users[user].(cash := db.users[user].cash + price * n)
    ensures forall id :: id in db.users && id != user ==> r.users[id] == db.users[id]
    ensures r.nextId == db.nextId
    ensures r.history == db.history + [Entry(user, sym, -(n as int), price * n, time)]
    ensures forall k :: k in r.holdings ==> k in db.holdings
    ensures forall k :: k in r.holdings ==> r.holdings[k] == (if k == target then held - n else db.holdings[k])
    ensures forall k :: k != target ==> Stocks(r.holdings, k) == Stocks(db.holdings, k)
    // the delete runs only when the written count is zero, and then takes
    // the written row and every other zero row with it
    ensures held - n != 0 ==> r.holdings.Keys == db.holdings.Keys
    ensures held - n == 0 ==> forall k :: k in r.holdings <==> k in db.holdings && k != target && db.holdings[k] != 0
  {
    var left := held - n;
    var updated := if target in db.holdings then db.holdings[target := left] else db.holdings;
    Db(db.users[user := db.users[user].(cash := db.users[user].cash + price * n)],
       db.nextId,
       if left == 0 then DropZeroRows(updated) else updated,
       db.history + [Entry(user, sym, -(n as int), price * n, time)])
  }

  /** The sell handler as written: the held count is read from the row of the
      symbol as submitted, the reduced count written to the row of its upper
      case. */
  function Sell(db: Db, user: UserId, symbol: Field, shares: Field, lookup: Lookup, time: Time): (r: Outcome<Db>)
    ensures !Given(symbol) ==> r == Refused(Apology("No stock selected", Forbidden))
    ensures Given(symbol) && HoldingKey(user, symbol.value) !in db.holdings ==>
              r == Refused(Apology("TODO", DefaultCode))
    ensures Given(symbol) && HoldingKey(user, symbol.value) in db.holdings && !Given(shares) ==>
              r == Refused(Apology("Must enter shares", DefaultCode))
    ensures Given(symbol) && HoldingKey(user, symbol.value) in db.holdings && Given(shares) && BadCount(shares.value) ==>
              r == Refused(Apology("Enter valid number of shares", Forbidden))
    // no short selling
    ensures Given(symbol) && HoldingKey(user, symbol.value) in db.holdings && Given(shares) && !BadCount(shares.value)
            && Count(shares.value) > db.holdings[HoldingKey(user, symbol.value)] ==>
              r == Refused(Apology("Too many shares", DefaultCode))
    // the price of the upper-cased symbol and the user's row are read
    // unchecked: either missing is a 500
    ensures Given(symbol) && HoldingKey(user, symbol.value) in db.holdings && Given(shares) && !BadCount(shares.value)
            && Count(shares.value) <= db.holdings[HoldingKey(user, symbol.value)]
            && lookup(Upper(symbol.value)).None? ==>
              r == Refused(InternalError)
    ensures Given(symbol) && HoldingKey(user, symbol.value) in db.holdings && Given(shares) && !BadCount(shares.value)
            && Count(shares.value) <= db.holdings[HoldingKey(user, symbol.value)]
            && lookup(Upper(symbol.value)).Some? && user !in db.users ==>
              r == Refused(InternalError)
    // every sale of at most the held count is accepted
    ensures Given(symbol) && HoldingKey(user, symbol.value) in db.holdings && Given(shares) && !BadCount(shares.value)
            && Count(shares.value) <= db.holdings[HoldingKey(user, symbol.value)]
            && lookup(Upper(symbol.value)).Some? && user in db.users ==>
              r.Ok?
    ensures r.Ok? ==>
              && Given(symbol) && Given(shares) && !BadCount(shares.value) && lookup(Upper(symbol.value)).Some?
              && user in db.users && HoldingKey(user, symbol.value) in db.holdings
              && var n := Count(shares.value);
                 var held := db.holdings[HoldingKey(user, symbol.value)];
                 var proceeds := lookup(Upper(symbol.value)).value * n;
                 var target := HoldingKey(user, Upper(symbol.value));
                 && n <= held
                 && r.value.users.Keys == db.users.Keys
                 && r.value.users[user] == db.users[user].(cash := db.users[user].cash + proceeds)
                 && (forall id :: id in db.users && id != user ==> r.value.users[id] == db.users[id])
                 && r.value.nextId == db.nextId
                 && r.value.history == db.history + [Entry(user, symbol.value, -(n as int), proceeds, time)]
                 // the upper-case row, if there is one, is set to held - n
                 && (target in db.holdings ==> Stocks(r.value.holdings, target) == held - n)
                 // every other row keeps its count
                 && (forall k :: k != target ==> Stocks(r.value.holdings, k) == Stocks(db.holdings, k))
                 // no row is created; rows vanish only when the written count is
                 // zero, and then exactly the zero rows of every user go
                 && (held != n ==> r.value.holdings.Keys == db.holdings.Keys)
                 && (held == n ==> forall k :: k in r.value.holdings <==> k in db.holdings && k != target && db.holdings[k] != 0)
  {
    SellUpdating(db, user, symbol, shares, lookup, time, UpperCased)
  }

  /** The sell handler with the reduced count written back to the row it
      was read from. */
  function SellCorrected(db: Db, user: UserId, symbol: Field, shares: Field, lookup: Lookup, time: Time): (r: Outcome<Db>)
    ensures !Given(symbol) ==> r == Refused(Apology("No stock selected", Forbidden))
    ensures Given(symbol) && HoldingKey(user, symbol.value) !in db.holdings ==>
              r == Refused(Apology("TODO", DefaultCode))
    ensures Given(symbol) && HoldingKey(user, symbol.value) in db.holdings && !Given(shares) ==>
              r == Refused(Apology("Must enter shares", DefaultCode))
    ensures Given(symbol) && HoldingKey(user, symbol.value) in db.holdings && Given(shares) && BadCount(shares.value) ==>
              r == Refused(Apology("Enter valid number of shares", Forbidden))
    ensures Given(symbol) && HoldingKey(user, symbol.value) in db.holdings && Given(shares) && !BadCount(shares.value)
            && Count(shares.value) > db.holdings[HoldingKey(user, symbol.value)] ==>
              r == Refused(Apology("Too many shares", DefaultCode))
    // the price of the upper-cased symbol and the user's row are read
    // unchecked: either missing is a 500
    ensures Given(symbol) && HoldingKey(user, symbol.value) in db.holdings && Given(shares) && !BadCount(shares.value)
            && Count(shares.value) <= db.holdings[HoldingKey(user, symbol.value)]
            && lookup(Upper(symbol.value)).None? ==>
              r == Refused(InternalError)
    ensures Given(symbol) && HoldingKey(user, symbol.value) in db.holdings && Given(shares) && !BadCount(shares.value)
            && Count(shares.value) <= db.holdings[HoldingKey(user, symbol.value)]
            && lookup(Upper(symbol.value)).Some? && user !in db.users ==>
              r == Refused(InternalError)
    // every sale of at most the held count is accepted
    ensures Given(symbol) && HoldingKey(user, symbol.value) in db.holdings && Given(shares) && !BadCount(shares.value)
            && Count(shares.value) <= db.holdings[HoldingKey(user, symbol.value)]
            && lookup(Upper(symbol.value)).Some? && user in db.users ==>
              r.Ok?
    ensures r.Ok? ==>
              && Given(symbol) && Given(shares) && !BadCount(shares.value) && lookup(Upper(symbol.value)).Some?
              && user in db.users && HoldingKey(user, symbol.value) in db.holdings
              && var n := Count(shares.value);
                 var key := HoldingKey(user, symbol.value);
                 var held := db.holdings[key];
                 var proceeds := lookup(Upper(symbol.value)).value * n;
                 && n <= held
                 && r.value.users.Keys == db.users.Keys
                 && r.value.users[user] == db.users[user].(cash := db.users[user].cash + proceeds)
                 && (forall id :: id in db.users && id != user ==> r.value.users[id] == db.users[id])
                 && r.value.nextId == db.nextId
                 && r.value.history == db.history + [Entry(user, symbol.value, -(n as int), proceeds, time)]
                 // the sold row now holds held - n, and is gone when that is zero
                 && Stocks(r.value.holdings, key) == held - n
                 && (key in r.value.holdings <==> held != n)
                 && (forall k :: k != key ==> Stocks(r.value.holdings, k) == Stocks(db.holdings, k))
                 // no row is created; rows vanish only when the sold row reaches
                 // zero, and then exactly the zero rows of every user go
                 && (held != n ==> r.value.holdings.Keys == db.holdings.Keys)
                 && (held == n ==> forall k :: k in r.value.holdings <==> k in db.holdings && k != key && db.holdings[k] != 0)
  {
    SellUpdating(db, user, symbol, shares, lookup, time, AsRead)
  }
}

=== FILE: trade_facts.dfy ===
/** What the buy and sell transitions guarantee across calls: the tables stay
    consistent, a trade at the quoted price moves value between cash and
    holdings without creating any, and a purchase followed by the sale of the
    same shares restores the ledger apart from its history. */
module TradeFacts {
  import opened Wrappers
  import opened Forms
  import opened Tables
  import opened Trade
  import opened Portfolio
  import PyInt

  /** A purchase the buyer can afford, into a row of the buyer's, keeps the
      tables consistent. */
  lemma PurchasePreservesValid(db: Db, user: UserId, sym: string, row: HoldingKey, n: nat, price: Price, time: Time)
    requires Valid(db) && user in db.users && row.user == user
    requires price * n <= db.users[user].cash
    ensures Valid(Purchase(db, user, sym, row, n, price, time))
  {
    var r := Purchase(db, user, sym, row, n, price, time);
    assert forall i :: 0 <= i < |r.history| ==> i < |db.history| || r.history[i].user == user;
  }

  lemma BuyPreservesValid(db: Db, user: UserId, symbol: Field, shares: Field, lookup: Lookup, time: Time)
    requires Valid(db)
    ensures Valid(After(db, Buy(db, user, symbol, shares, lookup, time)))
  {
    var r := Buy(db, user, symbol, shares, lookup, time);
    if r.Ok? {
      var sym := symbol.value;
      var key := HoldingKey(user, Upper(sym));
      var row := if key in db.holdings then key else HoldingKey(user, sym);
      var n := Count(shares.value);
      var price := lookup(Upper(sym)).value;
      assert r.value == Purchase(db, user, sym, row, n, price, time);
      PurchasePreservesValid(db, user, sym, row, n, price, time);
    }
  }

  /** A settled sale keeps the tables consistent: the seller's cash grows,
      the written count is what was held minus what was sold, rows only
      disappear, and nobody new appears. */
  lemma SettlePreservesValid(db: Db, user: UserId, sym: string, target: HoldingKey, held: int, n: nat, price: Price, time: Time)
    requires Valid(db) && user in db.users && n <= held
    ensures Valid(Settle(db, user, sym, target, held, n, price, time))
  {
    var r := Settle(db, user, sym, target, held, n, price, time);
    assert forall i :: 0 <= i < |r.history| ==> i < |db.history| || r.history[i].user == user;
  }

  lemma SellUpdatingPreservesValid(db: Db, user: UserId, symbol: Field, shares: Field, lookup: Lookup, time: Time, which: UpdateKey)
    requires Valid(db)
    ensures Valid(After(db, SellUpdating(db, user, symbol, shares, lookup, time, which)))
  {
    var r := SellUpdating(db, user, symbol, shares, lookup, time, which);
    if r.Ok? {
      var sym := symbol.value;
      var target := HoldingKey(user, if which == UpperCased then Upper(sym) else sym);
      var held := db.holdings[HoldingKey(user, sym)];
      var n := Count(shares.value);
      var price := lookup(Upper(sym)).value;
      assert r.value == Settle(db, user, sym, target, held, n, price, time);
      SettlePreservesValid(db, user, sym, target, held, n, price, time);
    }
  }

  lemma SellPreservesValid(db: Db, user: UserId, symbol: Field, shares: Field, lookup: Lookup, time: Time)
    requires Valid(db)
    ensures Valid(After(db, Sell(db, user, symbol, shares, lookup, time)))
  {
    SellUpdatingPreservesValid(db, user, symbol, shares, lookup, time, UpperCased);
  }

  lemma SellCorrectedPreservesValid(db: Db, user: UserId, symbol: Field, shares: Field, lookup: Lookup, time: Time)
    requires Valid(db)
    ensures Valid(After(db, SellCorrected(db, user, symbol, shares, lookup, time)))
  {
    SellUpdatingPreservesValid(db, user, symbol, shares, lookup, time, AsRead);
  }

  /** For an upper-case symbol the two sell handlers are the same. */
  lemma SellAgreesOnUpperCase(db: Db, user: UserId, symbol: Field, shares: Field, lookup: Lookup, time: Time)
    requires symbol.Some? ==> IsUpper(symbol.value)
    ensures Sell(db, user, symbol, shares, lookup, time) == SellCorrected(db, user, symbol, shares, lookup, time)
  {
    if symbol.Some? {
      UpperNormalises(symbol.value);
    }
  }

  /** Buying at the quoted price leaves cash plus holdings unchanged, as long
      as the quote does not depend on the case of the symbol. */
  lemma BuyConservesWorth(db: Db, user: UserId, symbol: Field, shares: Field, lookup: Lookup, time: Time)
    requires Buy(db, user, symbol, shares, lookup, time).Ok?
    requires lookup(Upper(symbol.value)) == lookup(symbol.value)
    requires Quoted(UserRows(db.holdings, user), lookup)
    ensures var db' := Buy(db, user, symbol, shares, lookup, time).value;
            && user in db'.users
            && Quoted(UserRows(db'.holdings, user), lookup)
            && Worth(db', user, lookup) == Worth(db, user, lookup)
  {
    var db' := Buy(db, user, symbol, shares, lookup, time).value;
    var n := Count(shares.value);
    var key := HoldingKey(user, Upper(symbol.value));
    var raw := HoldingKey(user, symbol.value);
    var row := if key in db.holdings then key else raw;
    assert db'.holdings == db.holdings[row := Stocks(db.holdings, row) + n];
    SetRow(db.holdings, row, Stocks(db.holdings, row) + n, lookup);
    var p := lookup(symbol.value).value;
    Distribute(p, Stocks(db.holdings, row), n);
  }

  /** Selling at the quoted price, with the count written back to the row it
      was read from, leaves cash plus holdings unchanged. */
  lemma SellCorrectedConservesWorth(db: Db, user: UserId, symbol: Field, shares: Field, lookup: Lookup, time: Time)
    requires SellCorrected(db, user, symbol, shares, lookup, time).Ok?
    requires lookup(Upper(symbol.value)) == lookup(symbol.value)
    requires Quoted(UserRows(db.holdings, user), lookup)
    ensures var db' := SellCorrected(db, user, symbol, shares, lookup, time).value;
            && user in db'.users
            && Quoted(UserRows(db'.holdings, user), lookup)
            && Worth(db', user, lookup) == Worth(db, user, lookup)
  {
    var r := SellUpdating(db, user, symbol, shares, lookup, time, AsRead);
    var n := Count(shares.value);
    var key := HoldingKey(user, symbol.value);
    var left := db.holdings[key] - n;
    var updated := db.holdings[key := left];
    assert r.value.users[user].cash == db.users[user].cash + lookup(symbol.value).value * n;
    SellRowValue(db.holdings, key, n, lookup);
    if left == 0 {
      assert r.value.holdings == DropZeroRows(updated);
      DropZeroRowsKeepsValue(updated, user, lookup);
    } else {
      assert r.value.holdings == updated;
    }
  }

  /** A purchase of n shares followed by the sale of the same n shares at the
      same quote gives back the cash and the holdings the user started with;
      only the two history rows remain. The share count travels as the text
      `str(n)` the form would carry. */
  lemma BuyThenSellRestores(db: Db, user: UserId, symbol: string, n: nat, lookup: Lookup, t1: Time, t2: Time)
    requires IsUpper(symbol)
    requires forall k :: k in db.holdings ==> db.holdings[k] > 0
    requires Buy(db, user, Some(symbol), Some(PyInt.Show(n)), lookup, t1).Ok?
    ensures var db1 := Buy(db, user, Some(symbol), Some(PyInt.Show(n)), lookup, t1).value;
            var r := Sell(db1, user, Some(symbol), Some(PyInt.Show(n)), lookup, t2);
            var cost := lookup(symbol).value * n;
            && r.Ok?
            && r.value.users == db.users
            && r.value.holdings == db.holdings
            && r.value.nextId == db.nextId
            && r.value.history == db.history + [Entry(user, symbol, n, cost, t1), Entry(user, symbol, -(n as int), cost, t2)]
  {
    var key := HoldingKey(user, symbol);
    var p := lookup(symbol).value;
    BuyUpperIsPurchase(db, user, symbol, n, lookup, t1);
    var db1 := Purchase(db, user, symbol, key, n, p, t1);
    SellUpperIsSettle(db1, user, symbol, n, lookup, t2);
    PurchaseThenSettle(db, user, symbol, n, p, t1, t2);
  }

  /** The commit steps of a purchase and of the sale of the same shares at
      the same price cancel out on the same row. */
  lemma PurchaseThenSettle(db: Db, user: UserId, symbol: string, n: nat, p: Price, t1: Time, t2: Time)
    requires user in db.users
    requires forall k :: k in db.holdings ==> db.holdings[k] > 0
    ensures var key := HoldingKey(user, symbol);
            var db1 := Purchase(db, user, symbol, key, n, p, t1);
            var r := Settle(db1, user, symbol, key, db1.holdings[key], n, p, t2);
            && r.users == db.users
            && r.holdings == db.holdings
            && r.nextId == db.nextId
            && r.history == db.history + [Entry(user, symbol, n, p * n, t1), Entry(user, symbol, -(n as int), p * n, t2)]
  {
    var key := HoldingKey(user, symbol);
    var db1 := Purchase(db, user, symbol, key, n, p, t1);
    var db2 := Settle(db1, user, symbol, key, db1.holdings[key], n, p, t2);
    assert db2.users == db.users;
    if key in db.holdings {
      assert db2.holdings == db1.holdings[key := db.holdings[key]];
    } else {
      assert db2.holdings == DropZeroRows(db1.holdings[key := 0]);
    }
  }

  /** A purchase of an upper-case symbol that goes through writes to the
      row of that symbol. */
  lemma BuyUpperIsPurchase(db: Db, user: UserId, symbol: string, n: nat, lookup: Lookup, time: Time)
    requires IsUpper(symbol)
    requires Buy(db, user, Some(symbol), Some(PyInt.Show(n)), lookup, time).Ok?
    ensures user in db.users && lookup(symbol).Some?
    ensures Buy(db, user, Some(symbol), Some(PyInt.Show(n)), lookup, time)
            == Ok(Purchase(db, user, symbol, HoldingKey(user, symbol), n, lookup(symbol).value, time))
  {
    PyInt.ParseShow(n);
    UpperNormalises(symbol);
  }

  /** A sale of an upper-case symbol the user holds at least n of goes
      through and settles that row. */
  lemma SellUpperIsSettle(db: Db, user: UserId, symbol: string, n: nat, lookup: Lookup, time: Time)
    requires symbol != "" && IsUpper(symbol) && user in db.users && lookup(symbol).Some?
    requires HoldingKey(user, symbol) in db.holdings && db.holdings[HoldingKey(user, symbol)] >= n
    ensures Sell(db, user, Some(symbol), Some(PyInt.Show(n)), lookup, time)
            == Ok(Settle(db, user, symbol, HoldingKey(user, symbol), db.holdings[HoldingKey(user, symbol)], n, lookup(symbol).value, time))
  {
    PyInt.ParseShow(n);
    UpperNormalises(symbol);
  }

  /** The concrete case behind the finding on `sell`: a quote of 400.00 for
      every symbol, and alice with 1000.00 and no holdings. */
  const FlatQuote: Lookup := (s: string) => Some(40000)

  const Alice := Db(map[1 := User("alice", "h", 100000)], 2, map[], [])

  /** What alice's tables hold after buying one share typed as "nflx". */
  const AliceHoldsNflx := Db(map[1 := User("alice", "h", 60000)], 2,
                             map[HoldingKey(1, "nflx") := 1],
                             [Entry(1, "nflx", 1, 40000, "t0")])

  lemma ReadsOne()
    ensures !BadCount("1") && Count("1") == 1
  {
    PyInt.ParseShow(1);
    assert PyInt.Show(1) == "1";
  }

  /** Buying one share typed "nflx" stores the row under "nflx". */
  lemma LowerCaseBuyStoresLowerCaseRow()
    ensures Buy(Alice, 1, Some("nflx"), Some("1"), FlatQuote, "t0") == Ok(AliceHoldsNflx)
  {
    ReadsOne();
    assert Upper("nflx") == "NFLX";
    var r := Buy(Alice, 1, Some("nflx"), Some("1"), FlatQuote, "t0");
    assert r.Ok?;
    assert r.value.holdings == map[HoldingKey(1, "nflx") := 1];
    assert r.value.users == AliceHoldsNflx.users;
    assert r.value.history == AliceHoldsNflx.history;
  }

  /** The sell handler as written, on that row: it reads the "nflx" row but
      decrements "NFLX", which does not exist. Alice gets her 1000.00 back
      and still holds the share. */
  lemma SellOfLowerCaseHoldingKeepsShares()
    ensures var r := Sell(AliceHoldsNflx, 1, Some("nflx"), Some("1"), FlatQuote, "t1");
            && r.Ok?
            && r.value.users[1].cash == Alice.users[1].cash
            && r.value.holdings == AliceHoldsNflx.holdings
  {
    ReadsOne();
    assert Upper("nflx") == "NFLX";
    var db := AliceHoldsNflx;
    var target := HoldingKey(1, "NFLX");
    assert target !in db.holdings;
    var r := SellUpdating(db, 1, Some("nflx"), Some("1"), FlatQuote, "t1", UpperCased);
    assert r == Ok(Settle(db, 1, "nflx", target, 1, 1, 40000, "t1"));
    assert DropZeroRows(db.holdings) == db.holdings;
  }

  /** The corrected handler on the same row removes it. */
  lemma SellCorrectedOfLowerCaseHoldingRemovesIt()
    ensures var r := SellCorrected(AliceHoldsNflx, 1, Some("nflx"), Some("1"), FlatQuote, "t1");
            && r.Ok?
            && r.value.users[1].cash == Alice.users[1].cash
            && r.value.holdings == map[]
  {
    ReadsOne();
    var db := AliceHoldsNflx;
    var key := HoldingKey(1, "nflx");
    var r := SellUpdating(db, 1, Some("nflx"), Some("1"), FlatQuote, "t1", AsRead);
    assert r == Ok(Settle(db, 1, "nflx", key, 1, 1, 40000, "t1"));
    assert DropZeroRows(db.holdings[key := 0]) == map[];
  }

  /** A count padded with a separator character, which `int` does not skip,
      is refused by both handlers as an invalid number of shares. */
  lemma SeparatorPaddedCountRefused()
    ensures Buy(Alice, 1, Some("NFLX"), Some("\U{1C}5"), FlatQuote, "t0")
            == Refused(Apology("Enter valid number of shares", Forbidden))
    ensures Sell(AliceHoldsNflx, 1, Some("nflx"), Some("1\U{1F}"), FlatQuote, "t1")
            == Refused(Apology("Enter valid number of shares", Forbidden))
  {
    PyInt.SeparatorRefused("\U{1C}5", '\U{1C}');
    assert "1\U{1F}"[1] == '\U{1F}';
    PyInt.SeparatorRefused("1\U{1F}", '\U{1F}');
  }
}

=== FILE: wrappers.dfy ===
/** Optional values, used for absent form fields, failed quote lookups and
    failed integer conversions. */
module Wrappers {

  datatype Option<+T> = None | Some(value: T)
}
